=== FILE: README.md ===
# Tuya Local device session manager, in Dafny

This project models `TuyaLocalDevice`, the device session manager of the
Tuya Local Home Assistant integration. One session serves one physical
device, or one sub-device behind a gateway. It keeps:

- the **cached state**: the property map last fetched from the device,
  plus a reserved `"updated_at"` stamp;
- the **pending updates**: optimistic writes, each with the time it was
  staged or last sent. A read evicts every pending entry that is 10 s old or more,
  then lays the survivors over the cache;
- the **time of the last connection**, which picks the debounce delay of
  the next flush;
- the **protocol-version negotiation** state: an index into the list of
  supported versions and a "protocol working" flag. Every status fetch
  and every send runs inside a loop of at most nine attempts. While the protocol is not
  working, each failure rotates the version. Nine failures reset the
  session.

Files:

- `wrappers.dfy`: `Option`, and a dictionary `Get`.
- `device_state.dfy` (module `DeviceState`): the cache and pending maps as
  values. It defines eviction, the merged read view, the layered lookup
  that the merge implements, refresh merging, write staging, re-stamping
  after a send, the debounce delay and the refresh gate. Lemmas relate
  them.
- `protocol_retry.dfy` (module `ProtocolRetry`): a value `Session` of the
  mutable fields, version rotation, and the retry loop as a recursive
  function `RetryFrom`. Lemmas state what the loop does on success and on
  exhaustion.
- `tuya_device.dfy` (module `TuyaDevice`): the class `TuyaLocalDevice`.
  Its fields are the source's fields and its methods update them in
  place. Each method's postcondition ties `State()` to the functions
  above, applied to `old(State())`. The module also has type inference,
  `get_key_for_value`, and client methods that write, optionally flush, and read back.

Modelling choices:

- **Clock.** The clock is an integer number of milliseconds, passed as
  `now` to every operation that reads `time()`. So the 10 s fake-it
  timeout is 10000, the 20 s cache timeout is 20000, and the debounce
  delay is 1000 ms after a connection less than 1000 ms ago, 1 ms
  otherwise.
- **Transport.** Each attempt's outcome is an input: a sequence of nine
  `TransportReply` values, `Raised` or `Returned(dps)`.
- **Version list.** The list of supported protocol versions is a
  non-empty constructor argument. Its contents are abstract.
- **Type inference.** The candidate profiles and their match qualities
  are inputs.
- **Values.** A property value is `Bool`, `Number` (an integer) or
  `Text`. The `"updated_at"` stamp is a `Number` key of the same map, as
  in the source.
- **Ordered dictionaries.** `get_key_for_value` reads a dict in insertion
  order, so `GetKeyForValue` takes the dict as its sequence of
  `(key, value)` entries.
- **Debounce.** `SetProperties` returns the delay it would arm the flush
  timer with. `SendPendingUpdates` is that flush.

Behaviour of the code worth noting:

- After nine failed attempts the cache is `{"updated_at": 0}`
  (device.py:175), not empty. The version is then rotated once more
  (device.py:257-262): the last failure clears the "working" flag before
  the loop tests it.
- A value set by `anticipate_property_value` (device.py:172) is shadowed
  by a live pending write to the same property, because reads lay the
  pending values over the cache (device.py:264-266). See
  `AnticipatedRead`. A refresh that fetches that property overwrites it;
  one that does not leaves it in place (`AnticipatedSurvivesRefresh`).
- A successful refresh also evicts expired pending writes. The debug line
  after the merge builds its message from `_get_cached_state()`
  (device.py:185), and that message is built even when debug logging is
  off.

## Model

| member | source | states |
|---|---|---|
| `DeviceState.Evict` | custom_components/tuya_local/device.py:271-278 | the surviving pending entries are exactly the old ones younger than 10 s; they keep their values; no key is added |
| `DeviceState.PendingProperties` | custom_components/tuya_local/device.py:268-269 | the pending values alone, over the same keys |
| `DeviceState.Refreshed` | custom_components/tuya_local/device.py:179-182 | the new cache holds every old key and every fetched key; fetched values win; `updated_at` is `now` |
| `DeviceState.Staged` | custom_components/tuya_local/device.py:195-200 | after eviction, each written key maps to its value stamped `now`; other live entries are unchanged; no other key appears |
| `DeviceState.Restamped` | custom_components/tuya_local/device.py:243-245 | same keys and values, every stamp set to `now` |
| `DeviceState.DebounceDelay` | custom_components/tuya_local/device.py:206-215 | the wait is 1000 ms iff the last connection was under 1000 ms ago, and 1 ms otherwise |
| `DeviceState.MergedView` | custom_components/tuya_local/device.py:264-266 | the merged keys are the cached keys plus the live pending keys; a live pending value wins over the cache; other keys keep their cached value |
| `DeviceState.Property` | custom_components/tuya_local/device.py:149-154 | nothing iff the key is neither cached nor pending and live; a live pending value when there is one |
| `DeviceState.HasReturnedState` | custom_components/tuya_local/device.py:91-94 | with the stamp present, true iff some key other than `updated_at` is known |
| `DeviceState.LastUpdated` | custom_components/tuya_local/device.py:130-134 | a numeric stamp is returned as it is; 0 when the merged view holds no stamp |
| `DeviceState.StartsNewRefresh` | custom_components/tuya_local/device.py:136 | a new refresh starts iff there is no refresh task or `now` minus the stamp is at least 20 s (with no stamp, the stamp counts as 0) |
| `DeviceState.MergedViewIsLayeredLookup` | custom_components/tuya_local/device.py:149-154 | a lookup in the merged view gives the live pending value if there is one, else the cached value, else nothing |
| `DeviceState.EvictLater` | custom_components/tuya_local/device.py:271-278 | evicting at an earlier time and then at a later one equals one eviction at the later time, so lazy eviction does not depend on how often reads happen |
| `DeviceState.WriteThenRead` | custom_components/tuya_local/device.py:188-200 | a property written at `t` reads back as the written value at any time before `t` + 10 s |
| `DeviceState.ExpiredWriteRevertsToCache` | custom_components/tuya_local/device.py:271-278 | a pending write 10 s old or more no longer shows; the read returns the cached value, or nothing |
| `DeviceState.CoalescedPayload` | custom_components/tuya_local/device.py:224-226 | a flush made less than 10 s after both writes carries both: the payload holds every written key, the later write winning |
| `DeviceState.AnticipatedRead` | custom_components/tuya_local/device.py:165-172 | an anticipated value is what a read returns, unless a live pending write to that property shadows it |
| `DeviceState.AnticipatedSurvivesRefresh` | custom_components/tuya_local/device.py:165-182 | an anticipated value survives a refresh that does not fetch its property, and is overwritten by one that does |
| `DeviceState.RefreshedRead` | custom_components/tuya_local/device.py:179-182 | after a refresh, a fetched property that no pending write shadows reads back as fetched |
| `DeviceState.SentValuesStayVisible` | custom_components/tuya_local/device.py:236-245 | a write flushed at `sent` stays visible until `sent` + 10 s, because the send re-stamps it |
| `DeviceState.ReturnedStateMeansProperty` | custom_components/tuya_local/device.py:91-94 | when the stamp is present, "more than one entry" holds iff some real property is known |
| `DeviceState.RefreshGate` | custom_components/tuya_local/device.py:129-140 | once a refresh task exists, a refresh made at `t` is fetched again only when `now - t` is 20 s or more |
| `DeviceState.SentCacheIsStale` | custom_components/tuya_local/device.py:236-240 | after a send clears the stamp, the next refresh request fetches again |
| `ProtocolRetry.NextVersionIndex` | custom_components/tuya_local/device.py:280-289 | an unset index becomes 0; index `i` becomes `(i + 1) mod len`; the result is always a valid index |
| `ProtocolRetry.ResetState` | custom_components/tuya_local/device.py:174-177 | the cache is exactly `{"updated_at": 0}`, nothing is pending, last connection is 0; the version state is kept |
| `ProtocolRetry.Rotated` | custom_components/tuya_local/device.py:280-289 | one rotation: an unset index becomes 0 and index `i` becomes `(i + 1) mod len`; nothing else changes |
| `ProtocolRetry.RotatedTimes` | custom_components/tuya_local/device.py:280-289 | after at least one rotation the index is set and valid; only the index changes |
| `ProtocolRetry.AfterSend` | custom_components/tuya_local/device.py:236-245 | after a send, the cache keeps its properties with the stamp 0, last connection is `now`, and the live pending entries keep their values, stamped `now` |
| `ProtocolRetry.Attempted` | custom_components/tuya_local/device.py:179-245 | a successful attempt (a refresh, lines 179-185, or a send, lines 236-245) keeps the version state and the live pending values. A refresh merges the fetched properties over the cache, fetched values winning, stamps it `now` and leaves the live pending entries as they were. A send keeps the cached properties, stamps the cache 0, sets the last connection to `now` and stamps every live pending entry `now` |
| `ProtocolRetry.AfterFailure` | custom_components/tuya_local/device.py:255-262 | a failure before the last attempt leaves cache, pending and flag alone and keeps the version of a working protocol; the last failure resets, clears the flag and rotates; a protocol not working is always rotated |
| `ProtocolRetry.RetryFrom` | custom_components/tuya_local/device.py:249-262 | from attempt `i`, at most nine attempts, every attempt before the last raised; success ends on a reply with the protocol working; failure means all nine were used and, from a live loop, the reset session not working |
| `ProtocolRetry.Retry` | custom_components/tuya_local/device.py:249-262 | one to nine attempts, all but the last raised; success iff the last reply returned, with the protocol working; failure leaves cache `{"updated_at": 0}`, nothing pending, last connection 0, not working |
| `ProtocolRetry.RotatedTimesInRange` | custom_components/tuya_local/device.py:280-289 | any number of rotations keeps a valid index valid and changes nothing but the index |
| `ProtocolRetry.RotatedTimesLast` | custom_components/tuya_local/device.py:261-262 | one more rotation after `k` rotations is `k + 1` rotations |
| `ProtocolRetry.FirstReturned` | custom_components/tuya_local/device.py:250-254 | the first attempt whose transport call returns; every earlier one raised |
| `ProtocolRetry.RetryFromSucceeds` | custom_components/tuya_local/device.py:250-262 | from attempt `i` on, the loop ends at the first reply `j`. It rotates `j - i` times if the protocol was not working, and not at all if it was |
| `ProtocolRetry.RetryFromExhausted` | custom_components/tuya_local/device.py:250-262 | from attempt `i` on, if every attempt raises, the result is the reset session, not working, rotated once more |
| `ProtocolRetry.RetryStopsAtFirstSuccess` | custom_components/tuya_local/device.py:249-254 | the call stops at the first reply: `j + 1` attempts, success, protocol working, the call's effects applied. The version rotated once per earlier failure only if the protocol was not working; a working protocol keeps its version |
| `ProtocolRetry.SentWriteOutcome` | custom_components/tuya_local/device.py:236-262 | a live write that is flushed either stays pending with its value, stamped with the send time, when the send is accepted, or is dropped by the reset after nine failures |
| `ProtocolRetry.RetryExhaustionResets` | custom_components/tuya_local/device.py:255-262 | nine failures: failure reported after nine attempts, cache `{"updated_at": 0}`, nothing pending, last connection 0, not working. The version rotated once if the protocol was working, nine times if not |
| `ProtocolRetry.RetryBounds` | custom_components/tuya_local/device.py:249-262 | at most nine attempts; success iff some attempt returned, after exactly first-reply + 1 attempts; the version index stays valid |
| `ProtocolRetry.ThirdVersionSticks` | custom_components/tuya_local/device.py:249-262 | versions [v1, v2, v3], failures on v1 and v2, a reply on v3: v3 stays selected and the protocol is working, and the next successful call keeps v3 |
| `TuyaDevice.TuyaLocalDevice.constructor` | custom_components/tuya_local/device.py:30-71 | a new session is on the first version, not working, with cache `{"updated_at": 0}`, nothing pending and last connection 0 |
| `TuyaDevice.TuyaLocalDevice.UniqueId` | custom_components/tuya_local/device.py:77-80 | the sub-device id when there is one, else the device id |
| `TuyaDevice.TuyaLocalDevice.CurrentVersion` | custom_components/tuya_local/device.py:289-291 | the version applied to the transport is one of the supported versions |
| `TuyaDevice.TuyaLocalDevice.GetPendingUpdates` | custom_components/tuya_local/device.py:271-278 | the pending field becomes `Evict` of its old value and is returned; nothing else changes |
| `TuyaDevice.TuyaLocalDevice.GetPendingProperties` | custom_components/tuya_local/device.py:268-269 | returns the values of the surviving pending entries, after evicting |
| `TuyaDevice.TuyaLocalDevice.GetCachedState` | custom_components/tuya_local/device.py:264-266 | returns the old cache overlaid by the live pending values, after evicting |
| `TuyaDevice.TuyaLocalDevice.GetProperty` | custom_components/tuya_local/device.py:149-154 | returns the layered lookup: live pending value, else cached value, else `None` |
| `TuyaDevice.TuyaLocalDevice.HasReturnedState` | custom_components/tuya_local/device.py:91-94 | true iff the merged view holds a key other than `updated_at` |
| `TuyaDevice.TuyaLocalDevice.AnticipatePropertyValue` | custom_components/tuya_local/device.py:165-172 | sets the value in the cache only; nothing else changes |
| `TuyaDevice.TuyaLocalDevice.ResetCachedState` | custom_components/tuya_local/device.py:174-177 | cache `{"updated_at": 0}`, nothing pending, last connection 0; the version state is kept |
| `TuyaDevice.TuyaLocalDevice.RefreshCachedState` | custom_components/tuya_local/device.py:179-186 | the cache becomes `Refreshed(old cache, dps, now)` and expired pending writes are evicted |
| `TuyaDevice.TuyaLocalDevice.SetProperties` | custom_components/tuya_local/device.py:188-193 | an empty write changes nothing and schedules nothing. Otherwise the writes are staged at `now`, the last connection becomes `now`, and a flush is scheduled after `DebounceDelay` |
| `TuyaDevice.TuyaLocalDevice.SetProperty` | custom_components/tuya_local/device.py:156-157 | a one-property write: staged, and a flush always scheduled |
| `TuyaDevice.TuyaLocalDevice.AddPropertiesToPendingUpdates` | custom_components/tuya_local/device.py:195-204 | the loop leaves pending equal to `Staged(old pending, properties, now)`; cache and counters are unchanged |
| `TuyaDevice.TuyaLocalDevice.DebounceSendingUpdates` | custom_components/tuya_local/device.py:206-222 | returns `DebounceDelay(old last connection, now)` and sets the last connection to `now` |
| `TuyaDevice.TuyaLocalDevice.SendPendingUpdates` | custom_components/tuya_local/device.py:224-234 | the payload is the live pending properties; the session then goes through the retried send |
| `TuyaDevice.TuyaLocalDevice.SendPayloadAccepted` | custom_components/tuya_local/device.py:236-247 | after an accepted send: `updated_at` is 0, last connection is `now`, and every live pending entry keeps its key and value and is stamped `now` |
| `TuyaDevice.TuyaLocalDevice.Refresh` | custom_components/tuya_local/device.py:142-147 | the status fetch goes through the retry loop; the new state is the `Retry` outcome |
| `TuyaDevice.TuyaLocalDevice.RetryOnFailedConnection` | custom_components/tuya_local/device.py:249-262 | the loop's final state, success flag and attempt count are those of `Retry` on the old state; the session stays valid |
| `TuyaDevice.TuyaLocalDevice.RotateApiProtocolVersion` | custom_components/tuya_local/device.py:280-291 | the index becomes `NextVersionIndex` of the old one; nothing else changes |
| `TuyaDevice.TuyaLocalDevice.InferredType` | custom_components/tuya_local/device.py:100-127 | returns the type of the first candidate scoring above 0 and above every earlier one, and at least every later one. Returns `None` iff no candidate scores above 0. Expired pending writes are evicted, even when there is no candidate, because the candidates are listed from a fresh read |
| `TuyaDevice.TuyaLocalDevice.GetKeyForValue` | custom_components/tuya_local/device.py:293-297 | the key of the first entry holding the value, or the fallback iff no entry holds it |
| `TuyaDevice.WriteManyThenRead` | custom_components/tuya_local/device.py:149-163 | writing `{"1": true, "2": 10}` and reading back at once gives `true` and `10`; ten seconds later, if neither a refresh nor the flush the write arms has run, `"1"` reads as `None` |
| `TuyaDevice.FlushThenRead` | custom_components/tuya_local/device.py:215-262 | flushing a live write of a property the cache lacks succeeds iff some attempt returns. On success the write reads back at any time from the send until the send + 10 s, and is gone at the send + 10 s; after nine failures it is gone at once |
| `TuyaDevice.WriteFlushThenRead` | custom_components/tuya_local/device.py:188-262 | the write followed by the flush it arms: after an accepted send `"1"` still reads `true` ten seconds after the write, and `None` ten seconds after the send; after nine failures it reads `None` at once |

## Left out

- The `tinytuya` transport (`status`, `generate_payload`, `_send_receive`, `set_version`) is foreign code. Its outcome per attempt is an input. `CurrentVersion` names the version that `set_version` would receive. The payload is the property map that `generate_payload` would encode.
- The `threading.Timer` that delays the flush, its cancellation, and the `Lock` around a send are left out. The model is sequential: `SetProperties` returns the delay, and `SendPendingUpdates` is the flush. A write that interleaves with a running flush is not modelled.
- The executor plumbing is left out: `async_refresh`, `async_set_property`, `async_set_properties` and `async_possible_types`. That includes joining a running refresh task, the `updated_at` stamp written when a refresh task starts, and the refresh that `async_possible_types` forces when the merged view holds at most one entry. Only the start-a-new-refresh test is modelled, as `StartsNewRefresh`.
- `possible_matches` and `match_quality` come from the profile catalog, which is not part of this model. Candidates and their integer qualities are inputs.
- Logging and `json.dumps` are left out. The one exception is the eviction caused by the refresh's debug line.
- `setup_device` and `delete_device` update the host's global registry; `custom_components/tuya_local/__init__.py` is configuration migration and platform setup; neither is part of this model. `name`, `device_info` and `temperature_unit` are plain accessors with no state logic.
- Floats: timestamps are integer milliseconds and numeric property values are integers. Each operation reads the clock once, where the source calls `time()` again inside nested helpers.
- `GetKeyForValue`: compares with Dafny equality on the value type. Python's `==` also equates `True` with `1` and `1` with `1.0`, so `get_key_for_value({"a": True}, 1)` returns `"a"` where the model, which keeps `Bool(true)` and `Number(1)` apart, returns the fallback.
- `LastUpdated`: reads a non-integer `updated_at` stamp as 0, where the source would compare a boolean as a number and raise on a string.

=== FILE: device_state.dfy ===
/**
 * The state a Tuya device session keeps about its device: the cached
 * property map (with its reserved "updated_at" key) and the pending,
 * not-yet-confirmed writes overlaid on it.  Everything here is a pure
 * function of those maps and of an explicit clock; the class in
 * tuya_device.dfy is proved against these functions.
 *
 * Time is an integer number of milliseconds.
 */
module DeviceState {
  import opened Wrappers

  /** How long an optimistic write stays visible without confirmation (10 s). */
  const FakeItTimeout: int := 10000
  /** Age after which a refresh request fetches again (20 s). */
  const CacheTimeout: int := 20000
  /** The reserved cache key holding the time of the last refresh. */
  const UpdatedAt: string := "updated_at"

  /** A property value as the device reports it. */
  datatype Value = Bool(b: bool) | Number(n: int) | Text(s: string)

  /** A write not yet confirmed by a refresh: the value and when it was staged or last sent. */
  datatype PendingUpdate = PendingUpdate(value: Value, updatedAt: int)

  type Cache = map<string, Value>
  type Pending = map<string, PendingUpdate>

  /** The pending entry `p` is younger than the fake-it timeout. */
  predicate Live(p: PendingUpdate, now: int)
  {
    now - p.updatedAt < FakeItTimeout
  }

  /** Lazy eviction: the pending entries that survive a read at time `now`. */
  function Evict(pending: Pending, now: int): (live: Pending)
    ensures live.Keys <= pending.Keys
    ensures forall k :: k in pending ==> (k in live <==> Live(pending[k], now))
    ensures forall k :: k in live ==> live[k] == pending[k]
  {
    map k | k in pending && Live(pending[k], now) :: pending[k]
  }

  /** The pending values alone, without their timestamps. */
  function PendingProperties(pending: Pending): (props: Cache)
    ensures props.Keys == pending.Keys
    ensures forall k :: k in props ==> props[k] == pending[k].value
  {
    map k | k in pending :: pending[k].value
  }

  /** The merged read view: the cache with every live pending value laid over it. */
  function MergedView(cache: Cache, pending: Pending, now: int): (merged: Cache)
    ensures merged.Keys == cache.Keys + Evict(pending, now).Keys
    ensures forall k :: k in pending && Live(pending[k], now) ==> merged[k] == pending[k].value
    ensures forall k :: k in cache && k !in Evict(pending, now) ==> merged[k] == cache[k]
  {
    cache + PendingProperties(Evict(pending, now))
  }

  /**
   * The layered lookup the merged view is meant to implement: a live
   * pending value first, then the cached value, then nothing.
   */
  function Property(cache: Cache, pending: Pending, now: int, k: string): (v: Option<Value>)
    ensures v.None? <==> k !in cache && k !in Evict(pending, now)
    ensures k in Evict(pending, now) ==> v == Some(pending[k].value)
  {
    if k in pending && Live(pending[k], now) then Some(pending[k].value)
    else if k in cache then Some(cache[k])
    else None
  }

  /** The cache after a successful status fetch returned `dps` at `now`. */
  function Refreshed(cache: Cache, dps: Cache, now: int): (r: Cache)
    ensures r.Keys == cache.Keys + dps.Keys + {UpdatedAt}
    ensures r[UpdatedAt] == Number(now)
    ensures forall k :: k in dps && k != UpdatedAt ==> r[k] == dps[k]
    ensures forall k :: k in cache && k !in dps && k != UpdatedAt ==> r[k] == cache[k]
  {
    (cache + dps)[UpdatedAt := Number(now)]
  }

  /** The pending map after `properties` were written at `now`. */
  function Staged(pending: Pending, properties: Cache, now: int): (r: Pending)
    ensures r.Keys == Evict(pending, now).Keys + properties.Keys
    ensures forall k :: k in properties ==> r[k] == PendingUpdate(properties[k], now)
    ensures forall k :: k in pending && k !in properties && Live(pending[k], now) ==> r[k] == pending[k]
  {
    Evict(pending, now) + map k | k in properties :: PendingUpdate(properties[k], now)
  }

  /** Every pending entry re-stamped with `now`, keys and values kept. */
  function Restamped(pending: Pending, now: int): (r: Pending)
    ensures r.Keys == pending.Keys
    ensures forall k :: k in r ==> r[k].value == pending[k].value && r[k].updatedAt == now
  {
    map k | k in pending :: PendingUpdate(pending[k].value, now)
  }

  /** The debounce wait in milliseconds before pending writes are flushed. */
  function DebounceDelay(lastConnection: int, now: int): (delay: int)
    ensures delay == 1000 <==> now - lastConnection < 1000
    ensures delay == 1 <==> now - lastConnection >= 1000
  {
    if now - lastConnection < 1000 then 1000 else 1
  }

  /** Whether the merged view holds anything besides the refresh stamp. */
  function HasReturnedState(merged: Cache): (returned: bool)
    ensures UpdatedAt in merged ==> (returned <==> exists k :: k in merged && k != UpdatedAt)
  {
    ReturnedStateMeansProperty(merged);
    |merged| > 1
  }

  /** The refresh stamp as read back from the merged view; 0 when absent. */
  function LastUpdated(merged: Cache): (stamp: int)
    ensures UpdatedAt !in merged ==> stamp == 0
    ensures stamp != 0 ==> UpdatedAt in merged && merged[UpdatedAt] == Number(stamp)
    ensures UpdatedAt in merged && merged[UpdatedAt].Number? ==> stamp == merged[UpdatedAt].n
  {
    if UpdatedAt in merged && merged[UpdatedAt].Number? then merged[UpdatedAt].n else 0
  }

  /** A refresh request starts a new fetch iff none was ever started or the stamp is stale. */
  predicate StartsNewRefresh(hasRefreshTask: bool, now: int, merged: Cache)
    ensures !hasRefreshTask ==> StartsNewRefresh(hasRefreshTask, now, merged)
    ensures UpdatedAt !in merged ==> (StartsNewRefresh(hasRefreshTask, now, merged) <==> !hasRefreshTask || now >= CacheTimeout)
    ensures UpdatedAt in merged && merged[UpdatedAt].Number? ==>
              (StartsNewRefresh(hasRefreshTask, now, merged) <==> !hasRefreshTask || now - merged[UpdatedAt].n >= CacheTimeout)
  {
    !hasRefreshTask || now - LastUpdated(merged) >= CacheTimeout
  }

  // ---------------------------------------------------------------------
  // Properties of the read view

  /** The dictionary merge returns exactly the layered lookup: pending shadows cache. */
  lemma MergedViewIsLayeredLookup(cache: Cache, pending: Pending, now: int, k: string)
    ensures Get(MergedView(cache, pending, now), k) == Property(cache, pending, now, k)
  {
    var live := Evict(pending, now);
    var props := PendingProperties(live);
    if k in live {
      assert MergedView(cache, pending, now)[k] == props[k] == pending[k].value;
    } else {
      assert k !in props;
    }
  }

  /** Evicting twice, at an earlier and then a later time, is evicting once at the later time. */
  lemma EvictLater(pending: Pending, t1: int, t2: int)
    requires t1 <= t2
    ensures Evict(Evict(pending, t1), t2) == Evict(pending, t2)
  {
    var once := Evict(pending, t1);
    forall k | k in pending && Live(pending[k], t2)
      ensures k in once
    {
      assert Live(pending[k], t1);
    }
  }

  /** A property written at `t` reads back as written until the fake-it timeout. */
  lemma WriteThenRead(cache: Cache, pending: Pending, properties: Cache, t: int, now: int, k: string)
    requires k in properties
    requires t <= now < t + FakeItTimeout
    ensures Property(cache, Staged(pending, properties, t), now, k) == Some(properties[k])
    ensures Get(MergedView(cache, Staged(pending, properties, t), now), k) == Some(properties[k])
  {
    MergedViewIsLayeredLookup(cache, Staged(pending, properties, t), now, k);
  }

  /** Once a pending entry has timed out, a read falls back to the cache (or to nothing). */
  lemma ExpiredWriteRevertsToCache(cache: Cache, pending: Pending, now: int, k: string)
    requires k in pending && now - pending[k].updatedAt >= FakeItTimeout
    ensures Get(MergedView(cache, pending, now), k) == Get(cache, k)
  {
    MergedViewIsLayeredLookup(cache, pending, now, k);
  }

  /**
   * Two writes staged within one window are flushed together: the payload
   * read at `now` holds every written key, the later write winning.
   */
  lemma CoalescedPayload(pending: Pending, p1: Cache, t1: int, p2: Cache, t2: int, now: int)
    requires t1 <= t2 <= now < t1 + FakeItTimeout
    ensures var payload := PendingProperties(Evict(Staged(Staged(pending, p1, t1), p2, t2), now));
            forall k :: k in p1 + p2 ==> k in payload && payload[k] == (p1 + p2)[k]
  {
    var s2 := Staged(Staged(pending, p1, t1), p2, t2);
    var payload := PendingProperties(Evict(s2, now));
    forall k | k in p1 + p2
      ensures k in payload && payload[k] == (p1 + p2)[k]
    {
      if k in p2 {
        assert s2[k] == PendingUpdate(p2[k], t2);
      } else {
        assert Staged(pending, p1, t1)[k] == PendingUpdate(p1[k], t1);
        assert s2[k] == PendingUpdate(p1[k], t1);
      }
    }
  }

  /**
   * A value anticipated into the cache is what a read returns, unless a
   * live pending write to the same property shadows it.
   */
  lemma AnticipatedRead(cache: Cache, pending: Pending, now: int, k: string, v: Value)
    ensures Get(MergedView(cache[k := v], pending, now), k)
         == if k in pending && Live(pending[k], now) then Some(pending[k].value) else Some(v)
  {
    MergedViewIsLayeredLookup(cache[k := v], pending, now, k);
  }

  /**
   * An anticipated value survives a refresh whose fetch does not include
   * that property; only a fetch that includes it overwrites it.
   */
  lemma AnticipatedSurvivesRefresh(cache: Cache, dps: Cache, t: int, k: string, v: Value)
    requires k != UpdatedAt
    ensures k !in dps ==> Refreshed(cache[k := v], dps, t)[k] == v
    ensures k in dps ==> Refreshed(cache[k := v], dps, t)[k] == dps[k]
  {
  }

  /** After a refresh, no earlier key is lost and a fetched value is read back unless shadowed. */
  lemma RefreshedRead(cache: Cache, pending: Pending, dps: Cache, t: int, now: int, k: string)
    requires k in dps && k != UpdatedAt
    requires k !in Evict(pending, now)
    ensures Get(MergedView(Refreshed(cache, dps, t), pending, now), k) == Some(dps[k])
  {
    MergedViewIsLayeredLookup(Refreshed(cache, dps, t), pending, now, k);
  }

  /** A flushed write, once re-stamped at the send, stays visible for another full timeout. */
  lemma SentValuesStayVisible(cache: Cache, pending: Pending, sent: int, now: int, k: string)
    requires k in Evict(pending, sent)
    requires sent <= now < sent + FakeItTimeout
    ensures Get(MergedView(cache, Restamped(Evict(pending, sent), sent), now), k) == Some(pending[k].value)
  {
    MergedViewIsLayeredLookup(cache, Restamped(Evict(pending, sent), sent), now, k);
  }

  /** With the stamp present, "has returned state" means some real property is known. */
  lemma ReturnedStateMeansProperty(merged: Cache)
    ensures UpdatedAt in merged ==> (|merged| > 1 <==> exists k :: k in merged && k != UpdatedAt)
  {
    if UpdatedAt !in merged {
      return;
    }
    var others := merged.Keys - {UpdatedAt};
    assert merged.Keys == others + {UpdatedAt};
    assert |merged.Keys| == |others| + 1;
    if others != {} {
      var k :| k in others;
      assert k in merged && k != UpdatedAt;
    }
  }

  /** Right after a refresh at `t`, a refresh request fetches again only once the cache is 20 s old. */
  lemma RefreshGate(cache: Cache, pending: Pending, dps: Cache, t: int, now: int)
    requires UpdatedAt !in Evict(pending, now)
    ensures StartsNewRefresh(true, now, MergedView(Refreshed(cache, dps, t), pending, now))
        <==> now - t >= CacheTimeout
  {
    MergedViewIsLayeredLookup(Refreshed(cache, dps, t), pending, now, UpdatedAt);
  }

  /** Clearing the stamp after a send makes the next refresh request fetch again. */
  lemma SentCacheIsStale(cache: Cache, pending: Pending, now: int)
    requires UpdatedAt !in Evict(pending, now)
    requires now >= CacheTimeout
    ensures StartsNewRefresh(true, now, MergedView(cache[UpdatedAt := Number(0)], pending, now))
  {
    MergedViewIsLayeredLookup(cache[UpdatedAt := Number(0)], pending, now, UpdatedAt);
  }
}

=== FILE: protocol_retry.dfy ===
/**
 * Protocol-version negotiation and the bounded retry around every
 * status fetch and every send, specified on a value snapshot of a device session.
 * The transport itself is opaque: each attempt's outcome is given as a
 * scripted reply.
 */
module ProtocolRetry {
  import opened Wrappers
  import opened DeviceState

  /** Transport attempts made before a call is given up. */
  const ConnectionAttempts: nat := 9

  /** The mutable state of one device session. */
  datatype Session = Session(
    cache: Cache,
    pending: Pending,
    lastConnection: int,
    versionIndex: Option<nat>,
    working: bool)

  /** The transport call wrapped by the retry loop. */
  datatype Operation = RefreshState | SendPayload

  /** What one transport attempt did: raised, or returned the device's property map. */
  datatype TransportReply = Raised | Returned(dps: Cache)

  /** The result of a retried call: the session afterwards, success, and attempts made. */
  datatype RetryOutcome = RetryOutcome(session: Session, ok: bool, attempts: nat)

  /** The protocol-version index after one rotation through `count` versions. */
  function NextVersionIndex(index: Option<nat>, count: nat): (next: nat)
    requires count > 0
    ensures next < count
    ensures index.None? ==> next == 0
    ensures index.Some? && index.value < count ==> next == (index.value + 1) % count
  {
    var i := if index.None? then 0 else index.value + 1;
    if i >= count then 0 else i
  }

  /** Cache back to "never refreshed", no pending writes, no connection. */
  function ResetState(s: Session): (r: Session)
    ensures r.cache == map[UpdatedAt := Number(0)]
    ensures LastUpdated(r.cache) == 0 && !HasReturnedState(r.cache)
    ensures r.pending == map[] && r.lastConnection == 0
    ensures r.versionIndex == s.versionIndex && r.working == s.working
  {
    s.(cache := map[UpdatedAt := Number(0)], pending := map[], lastConnection := 0)
  }

  /** One rotation: only the version index moves, one step along the list. */
  function Rotated(s: Session, count: nat): (r: Session)
    requires count > 0
    ensures r.versionIndex.Some? && r.versionIndex.value < count
    ensures s.versionIndex.None? ==> r.versionIndex == Some(0)
    ensures s.versionIndex.Some? && s.versionIndex.value < count ==>
              r.versionIndex == Some((s.versionIndex.value + 1) % count)
    ensures r == s.(versionIndex := r.versionIndex)
  {
    s.(versionIndex := Some(NextVersionIndex(s.versionIndex, count)))
  }

  /** `k` rotations in a row. */
  function RotatedTimes(s: Session, k: nat, count: nat): (r: Session)
    requires count > 0
    ensures k > 0 ==> r.versionIndex.Some? && r.versionIndex.value < count
    ensures r == s.(versionIndex := r.versionIndex)
    decreases k
  {
    if k == 0 then s else RotatedTimes(Rotated(s, count), k - 1, count)
  }

  /** The effects of a send the device accepted at `now`. */
  function AfterSend(s: Session, now: int): (r: Session)
    ensures r.cache.Keys == s.cache.Keys + {UpdatedAt} && r.cache[UpdatedAt] == Number(0)
    ensures forall k :: k in s.cache && k != UpdatedAt ==> r.cache[k] == s.cache[k]
    ensures r.lastConnection == now
    ensures r.pending.Keys == Evict(s.pending, now).Keys
    ensures forall k :: k in r.pending ==> r.pending[k] == PendingUpdate(s.pending[k].value, now)
    ensures r.versionIndex == s.versionIndex && r.working == s.working
  {
    s.(cache := s.cache[UpdatedAt := Number(0)],
       lastConnection := now,
       pending := Restamped(Evict(s.pending, now), now))
  }

  /**
   * The effects of a transport call that returned `dps`.  A refresh also
   * evicts expired pending writes, because it reads the merged view.
   */
  function Attempted(s: Session, op: Operation, dps: Cache, now: int): (r: Session)
    ensures UpdatedAt in r.cache
    ensures r.pending.Keys == Evict(s.pending, now).Keys
    ensures forall k :: k in r.pending ==> r.pending[k].value == s.pending[k].value
    ensures op.RefreshState? ==> r.lastConnection == s.lastConnection && r.cache[UpdatedAt] == Number(now)
    ensures op.RefreshState? ==> r.cache.Keys == s.cache.Keys + dps.Keys + {UpdatedAt}
    ensures op.RefreshState? ==> forall k :: k in dps && k != UpdatedAt ==> r.cache[k] == dps[k]
    ensures op.RefreshState? ==> forall k :: k in s.cache && k !in dps && k != UpdatedAt ==> r.cache[k] == s.cache[k]
    ensures op.RefreshState? ==> forall k :: k in r.pending ==> r.pending[k] == s.pending[k]
    ensures op.SendPayload? ==> r.lastConnection == now && r.cache[UpdatedAt] == Number(0)
    ensures op.SendPayload? ==> r.cache.Keys == s.cache.Keys + {UpdatedAt}
    ensures op.SendPayload? ==> forall k :: k in s.cache && k != UpdatedAt ==> r.cache[k] == s.cache[k]
    ensures op.SendPayload? ==> forall k :: k in r.pending ==> r.pending[k].updatedAt == now
    ensures r.versionIndex == s.versionIndex && r.working == s.working
  {
    match op
    case RefreshState => s.(cache := Refreshed(s.cache, dps, now), pending := Evict(s.pending, now))
    case SendPayload => AfterSend(s, now)
  }

  /** The bookkeeping after attempt `i` (zero-based) raised. */
  function AfterFailure(s: Session, i: nat, count: nat): (r: Session)
    requires count > 0
    ensures i + 1 != ConnectionAttempts ==>
              r.cache == s.cache && r.pending == s.pending && r.lastConnection == s.lastConnection
              && r.working == s.working
    ensures i + 1 == ConnectionAttempts ==> r == Rotated(ResetState(s).(working := false), count)
    ensures s.working && i + 1 != ConnectionAttempts ==> r.versionIndex == s.versionIndex
    ensures !s.working ==> r.versionIndex == Some(NextVersionIndex(s.versionIndex, count))
  {
    var s1 := if i + 1 == ConnectionAttempts then ResetState(s).(working := false) else s;
    if !s1.working then Rotated(s1, count) else s1
  }

  /** The retry loop from attempt `i` on. */
  function RetryFrom(s: Session, op: Operation, replies: seq<TransportReply>, i: nat, now: int, count: nat): (r: RetryOutcome)
    requires count > 0
    requires i <= ConnectionAttempts <= |replies|
    ensures i <= r.attempts <= ConnectionAttempts
    ensures forall a :: i <= a < r.attempts - 1 ==> replies[a].Raised?
    ensures r.ok ==> i < r.attempts && replies[r.attempts - 1].Returned? && r.session.working
    ensures !r.ok ==> r.attempts == ConnectionAttempts
    ensures !r.ok && i < ConnectionAttempts ==>
              && !r.session.working
              && r.session.cache == map[UpdatedAt := Number(0)]
              && r.session.pending == map[]
              && r.session.lastConnection == 0
              && replies[ConnectionAttempts - 1].Raised?
    decreases ConnectionAttempts - i
  {
    if i == ConnectionAttempts then RetryOutcome(s, false, ConnectionAttempts)
    else match replies[i]
      case Returned(dps) => RetryOutcome(Attempted(s, op, dps, now).(working := true), true, i + 1)
      case Raised => RetryFrom(AfterFailure(s, i, count), op, replies, i + 1, now, count)
  }

  /** The whole retried call. */
  function Retry(s: Session, op: Operation, replies: seq<TransportReply>, now: int, count: nat): (r: RetryOutcome)
    requires count > 0
    requires ConnectionAttempts <= |replies|
    ensures 1 <= r.attempts <= ConnectionAttempts
    ensures forall a :: 0 <= a < r.attempts - 1 ==> replies[a].Raised?
    ensures r.ok <==> replies[r.attempts - 1].Returned?
    ensures r.ok ==> r.session.working
    ensures !r.ok ==> && !r.session.working
                      && r.session.cache == map[UpdatedAt := Number(0)]
                      && r.session.pending == map[]
                      && r.session.lastConnection == 0
  {
    RetryFrom(s, op, replies, 0, now, count)
  }

  // ---------------------------------------------------------------------
  // Properties of rotation and retry

  /** Rotation never leaves the version list, and changes nothing but the version index. */
  lemma {:induction false} RotatedTimesInRange(s: Session, k: nat, count: nat)
    requires count > 0
    requires s.versionIndex.Some? ==> s.versionIndex.value < count
    ensures k > 0 ==> RotatedTimes(s, k, count).versionIndex.Some?
    ensures RotatedTimes(s, k, count).versionIndex.Some? ==> RotatedTimes(s, k, count).versionIndex.value < count
    ensures RotatedTimes(s, k, count) == s.(versionIndex := RotatedTimes(s, k, count).versionIndex)
    decreases k
  {
    if k > 0 {
      RotatedTimesInRange(Rotated(s, count), k - 1, count);
    }
  }

  /** One more rotation after `k` rotations is `k + 1` rotations. */
  lemma {:induction false} RotatedTimesLast(s: Session, k: nat, count: nat)
    requires count > 0
    ensures RotatedTimes(s, k + 1, count) == Rotated(RotatedTimes(s, k, count), count)
    decreases k
  {
    if k > 0 {
      RotatedTimesLast(Rotated(s, count), k - 1, count);
    }
  }

  /** The first attempt at or after `i` whose transport call returns; `ConnectionAttempts` if none does. */
  function FirstReturned(replies: seq<TransportReply>, i: nat): (j: nat)
    requires i <= ConnectionAttempts <= |replies|
    ensures i <= j <= ConnectionAttempts
    ensures forall a :: i <= a < j ==> replies[a].Raised?
    ensures j < ConnectionAttempts ==> replies[j].Returned?
    decreases ConnectionAttempts - i
  {
    if i == ConnectionAttempts || replies[i].Returned? then i else FirstReturned(replies, i + 1)
  }

  lemma {:induction false} RetryFromSucceeds(s: Session, op: Operation, replies: seq<TransportReply>, i: nat, j: nat, now: int, count: nat)
    requires count > 0
    requires ConnectionAttempts <= |replies|
    requires i <= j < ConnectionAttempts
    requires forall a :: i <= a < j ==> replies[a].Raised?
    requires replies[j].Returned?
    ensures RetryFrom(s, op, replies, i, now, count)
         == RetryOutcome(Attempted(RotatedTimes(s, if s.working then 0 else j - i, count), op, replies[j].dps, now).(working := true),
                         true, j + 1)
    decreases j - i
  {
    if i < j {
      var s2 := AfterFailure(s, i, count);
      assert s2 == if s.working then s else Rotated(s, count);
      RetryFromSucceeds(s2, op, replies, i + 1, j, now, count);
    }
  }

  lemma {:induction false} RetryFromExhausted(s: Session, op: Operation, replies: seq<TransportReply>, i: nat, now: int, count: nat)
    requires count > 0
    requires i < ConnectionAttempts <= |replies|
    requires forall a :: i <= a < ConnectionAttempts ==> replies[a].Raised?
    ensures RetryFrom(s, op, replies, i, now, count)
         == RetryOutcome(Rotated(ResetState(RotatedTimes(s, if s.working then 0 else ConnectionAttempts - 1 - i, count)).(working := false), count),
                         false, ConnectionAttempts)
    decreases ConnectionAttempts - i
  {
    var s2 := AfterFailure(s, i, count);
    if i + 1 < ConnectionAttempts {
      assert s2 == if s.working then s else Rotated(s, count);
      RetryFromExhausted(s2, op, replies, i + 1, now, count);
    } else {
      assert RetryFrom(s2, op, replies, i + 1, now, count) == RetryOutcome(s2, false, ConnectionAttempts);
    }
  }

  /**
   * A call succeeds at the first attempt whose transport call returns: it
   * makes exactly that many attempts, marks the protocol working, applies
   * the call's effects, and has rotated the version once per earlier
   * failure only if the protocol was not already working.
   */
  lemma RetryStopsAtFirstSuccess(s: Session, op: Operation, replies: seq<TransportReply>, j: nat, now: int, count: nat)
    requires count > 0
    requires ConnectionAttempts <= |replies|
    requires j < ConnectionAttempts
    requires forall a :: 0 <= a < j ==> replies[a].Raised?
    requires replies[j].Returned?
    ensures var r := Retry(s, op, replies, now, count);
            && r.ok && r.attempts == j + 1 && r.session.working
            && r.session == Attempted(RotatedTimes(s, if s.working then 0 else j, count), op, replies[j].dps, now).(working := true)
    ensures s.working ==> Retry(s, op, replies, now, count).session.versionIndex == s.versionIndex
  {
    RetryFromSucceeds(s, op, replies, 0, j, now, count);
  }

  /**
   * A live write that is flushed either survives, re-stamped with the send
   * time, when the device accepts the send, or is dropped with the reset
   * when all nine attempts raise.
   */
  lemma SentWriteOutcome(s: Session, replies: seq<TransportReply>, now: int, count: nat, k: string)
    requires count > 0
    requires ConnectionAttempts <= |replies|
    requires k in s.pending && Live(s.pending[k], now)
    ensures var r := Retry(s, SendPayload, replies, now, count);
            && (r.ok ==> && k in r.session.pending
                         && r.session.pending[k] == PendingUpdate(s.pending[k].value, now)
                         && r.session.cache.Keys == s.cache.Keys + {UpdatedAt})
            && (!r.ok ==> r.session.pending == map[] && r.session.cache == map[UpdatedAt := Number(0)])
  {
    var j := FirstReturned(replies, 0);
    if j < ConnectionAttempts {
      RetryStopsAtFirstSuccess(s, SendPayload, replies, j, now, count);
    } else {
      RetryExhaustionResets(s, SendPayload, replies, now, count);
    }
  }

  /**
   * Nine failed attempts give up: the cache holds only a zero stamp, no
   * write is pending, the protocol is marked not working, and the version
   * has been rotated after every failure made while it was not working.
   */
  lemma RetryExhaustionResets(s: Session, op: Operation, replies: seq<TransportReply>, now: int, count: nat)
    requires count > 0
    requires ConnectionAttempts <= |replies|
    requires forall a :: 0 <= a < ConnectionAttempts ==> replies[a].Raised?
    ensures var r := Retry(s, op, replies, now, count);
            && !r.ok && r.attempts == ConnectionAttempts
            && r.session.cache == map[UpdatedAt := Number(0)]
            && r.session.pending == map[]
            && r.session.lastConnection == 0
            && !r.session.working
            && r.session.versionIndex
               == RotatedTimes(s, if s.working then 1 else ConnectionAttempts, count).versionIndex
  {
    RetryFromExhausted(s, op, replies, 0, now, count);
    RotatedTimesLast(s, if s.working then 0 else ConnectionAttempts - 1, count);
  }

  /**
   * Whatever the replies: at most nine attempts are made, the call succeeds
   * iff some attempt returned, and a valid version index stays valid.
   */
  lemma RetryBounds(s: Session, op: Operation, replies: seq<TransportReply>, now: int, count: nat)
    requires count > 0
    requires ConnectionAttempts <= |replies|
    requires s.versionIndex.Some? ==> s.versionIndex.value < count
    ensures var r := Retry(s, op, replies, now, count);
            && 1 <= r.attempts <= ConnectionAttempts
            && (r.ok <==> exists a :: 0 <= a < ConnectionAttempts && replies[a].Returned?)
            && (r.ok ==> r.attempts == FirstReturned(replies, 0) + 1)
            && (r.session.versionIndex.Some? ==> r.session.versionIndex.value < count)
            && (!r.ok ==> r.session.versionIndex.Some?)
  {
    var j := FirstReturned(replies, 0);
    if j < ConnectionAttempts {
      RetryStopsAtFirstSuccess(s, op, replies, j, now, count);
      RotatedTimesInRange(s, if s.working then 0 else j, count);
    } else {
      RetryExhaustionResets(s, op, replies, now, count);
      RotatedTimesInRange(s, if s.working then 1 else ConnectionAttempts, count);
    }
  }

  /**
   * Versions [v1, v2, v3], index on v1, protocol not working: failures on
   * v1 and v2 and a reply on v3 leave v3 selected and the protocol working,
   * and the next successful call does not rotate again.
   */
  lemma ThirdVersionSticks(s: Session, op: Operation, replies: seq<TransportReply>, next: seq<TransportReply>, now: int)
    requires s.versionIndex == Some(0) && !s.working
    requires |replies| == ConnectionAttempts && replies[0].Raised? && replies[1].Raised? && replies[2].Returned?
    requires |next| == ConnectionAttempts && next[0].Returned?
    ensures var r := Retry(s, op, replies, now, 3);
            && r.ok && r.session.working && r.session.versionIndex == Some(2)
            && Retry(r.session, op, next, now, 3).session.versionIndex == Some(2)
  {
    RetryStopsAtFirstSuccess(s, op, replies, 2, now, 3);
    RotatedTimesInRange(s, 2, 3);
    var r := Retry(s, op, replies, now, 3);
    RetryStopsAtFirstSuccess(r.session, op, next, 0, now, 3);
  }
}

=== FILE: tuya_device.dfy ===
/**
 * The device session manager: one `TuyaLocalDevice` per physical (or
 * gateway sub-) device.  It owns the cached state, the pending writes,
 * the time of the last connection and the protocol-version negotiation
 * state, and updates them in place.  Every method is proved against the
 * value-level functions of DeviceState and ProtocolRetry through `State()`.
 *
 * The clock is an explicit `now` (milliseconds); the transport is opaque
 * and each attempt's outcome is a scripted `TransportReply`.
 */
module TuyaDevice {
  import opened Wrappers
  import opened DeviceState
  import opened ProtocolRetry

  /** A device profile the catalog proposes, with its match quality against the current state. */
  datatype Candidate = Candidate(configType: string, quality: int)

  class TuyaLocalDevice {
    /** The configured device id, and the sub-device id when this is a gateway child. */
    const devId: string
    const cid: Option<string>
    /** The id the transport session is opened with. */
    const apiId: string
    /** The supported protocol versions, tried in this order. */
    const apiProtocolVersions: seq<string>

    var cachedState: Cache
    var pendingUpdates: Pending
    var lastConnection: int
    var apiProtocolVersionIndex: Option<nat>
    var apiProtocolWorking: bool

    ghost predicate Valid()
      reads this
    {
      && |apiProtocolVersions| > 0
      && apiProtocolVersionIndex.Some?
      && apiProtocolVersionIndex.value < |apiProtocolVersions|
      && UpdatedAt in cachedState
      && apiId == (if cid.Some? then cid.value else devId)
    }

    /** The mutable state as a value. */
    function State(): Session
      reads this
    {
      Session(cachedState, pendingUpdates, lastConnection, apiProtocolVersionIndex, apiProtocolWorking)
    }

    /** A sub-device talks through its own id; its gateway's key and address belong to the transport. */
    constructor (devId: string, cid: Option<string>, apiProtocolVersions: seq<string>)
      requires |apiProtocolVersions| > 0
      ensures Valid()
      ensures this.devId == devId && this.cid == cid && this.apiProtocolVersions == apiProtocolVersions
      ensures State() == Session(map[UpdatedAt := Number(0)], map[], 0, Some(0), false)
    {
      this.devId := devId;
      this.cid := cid;
      apiId := if cid.Some? then cid.value else devId;
      this.apiProtocolVersions := apiProtocolVersions;
      apiProtocolVersionIndex := None;
      apiProtocolWorking := false;
      new;
      RotateApiProtocolVersion();
      ResetCachedState();
    }

    /** The entity-registry id: the sub-device id if there is one, else the device id. */
    function UniqueId(): (id: string)
      reads this
      requires Valid()
      ensures cid.Some? ==> id == cid.value
      ensures cid.None? ==> id == devId
    {
      if cid.Some? then cid.value else apiId
    }

    /** The protocol version currently applied to the transport. */
    function CurrentVersion(): (v: string)
      reads this
      requires Valid()
      ensures v in apiProtocolVersions
    {
      apiProtocolVersions[apiProtocolVersionIndex.value]
    }

    // -------------------------------------------------------------------
    // Reads: each one first evicts expired pending writes

    method GetPendingUpdates(now: int) returns (live: Pending)
      modifies this
      ensures State() == old(State()).(pending := Evict(old(pendingUpdates), now))
      ensures live == pendingUpdates
    {
      pendingUpdates := Evict(pendingUpdates, now);
      live := pendingUpdates;
    }

    method GetPendingProperties(now: int) returns (props: Cache)
      modifies this
      ensures State() == old(State()).(pending := Evict(old(pendingUpdates), now))
      ensures props == PendingProperties(Evict(old(pendingUpdates), now))
    {
      var live := GetPendingUpdates(now);
      props := PendingProperties(live);
    }

    method GetCachedState(now: int) returns (merged: Cache)
      modifies this
      ensures State() == old(State()).(pending := Evict(old(pendingUpdates), now))
      ensures merged == MergedView(old(cachedState), old(pendingUpdates), now)
    {
      var cached := cachedState;
      var props := GetPendingProperties(now);
      merged := cached + props;
    }

    /** A live pending write first, then the cached value, else nothing. */
    method GetProperty(dpsId: string, now: int) returns (v: Option<Value>)
      modifies this
      ensures State() == old(State()).(pending := Evict(old(pendingUpdates), now))
      ensures v == Property(old(cachedState), old(pendingUpdates), now, dpsId)
    {
      var merged := GetCachedState(now);
      v := if dpsId in merged then Some(merged[dpsId]) else None;
      MergedViewIsLayeredLookup(old(cachedState), old(pendingUpdates), now, dpsId);
    }

    /** True iff the merged view knows some property besides the refresh stamp. */
    method HasReturnedState(now: int) returns (returned: bool)
      requires Valid()
      modifies this
      ensures State() == old(State()).(pending := Evict(old(pendingUpdates), now))
      ensures returned <==> exists k :: k in MergedView(old(cachedState), old(pendingUpdates), now) && k != UpdatedAt
    {
      var merged := GetCachedState(now);
      returned := DeviceState.HasReturnedState(merged);
    }

    /** Sets a value in the cache only; a refresh that fetches this property overwrites it. */
    method AnticipatePropertyValue(dpsId: string, value: Value)
      modifies this
      ensures State() == old(State()).(cache := old(cachedState)[dpsId := value])
    {
      cachedState := cachedState[dpsId := value];
    }

    // -------------------------------------------------------------------
    // State bookkeeping

    method ResetCachedState()
      modifies this
      ensures State() == ResetState(old(State()))
    {
      cachedState := map[UpdatedAt := Number(0)];
      pendingUpdates := map[];
      lastConnection := 0;
    }

    /**
     * One successful status fetch that returned `dps`.  The debug line the
     * source writes afterwards reads the merged view, which evicts expired
     * pending writes as well.
     */
    method RefreshCachedState(dps: Cache, now: int)
      modifies this
      ensures State() == Attempted(old(State()), RefreshState, dps, now)
    {
      cachedState := cachedState + dps;
      cachedState := cachedState[UpdatedAt := Number(now)];
      var _ := GetCachedState(now);
    }

    // -------------------------------------------------------------------
    // Write path

    /** Writes are staged as pending; an empty write does nothing and schedules nothing. */
    method SetProperties(properties: Cache, now: int) returns (flushDelay: Option<int>)
      modifies this
      ensures |properties| == 0 ==> flushDelay == None && State() == old(State())
      ensures |properties| > 0 ==>
                && flushDelay == Some(DebounceDelay(old(lastConnection), now))
                && State() == old(State()).(pending := Staged(old(pendingUpdates), properties, now),
                                            lastConnection := now)
    {
      if |properties| == 0 {
        return None;
      }
      AddPropertiesToPendingUpdates(properties, now);
      var delay := DebounceSendingUpdates(now);
      flushDelay := Some(delay);
    }

    method SetProperty(dpsId: string, value: Value, now: int) returns (flushDelay: Option<int>)
      modifies this
      ensures flushDelay == Some(DebounceDelay(old(lastConnection), now))
      ensures State() == old(State()).(pending := Staged(old(pendingUpdates), map[dpsId := value], now),
                                       lastConnection := now)
    {
      assert dpsId in map[dpsId := value];
      flushDelay := SetProperties(map[dpsId := value], now);
    }

    method AddPropertiesToPendingUpdates(properties: Cache, now: int)
      modifies this
      ensures State() == old(State()).(pending := Staged(old(pendingUpdates), properties, now))
    {
      var live := GetPendingUpdates(now);
      var todo := properties.Keys;
      while todo != {}
        invariant todo <= properties.Keys
        invariant State() == old(State()).(pending := pendingUpdates)
        invariant pendingUpdates.Keys == live.Keys + (properties.Keys - todo)
        invariant forall k :: k in properties.Keys - todo ==> pendingUpdates[k] == PendingUpdate(properties[k], now)
        invariant forall k :: k in live && k !in properties.Keys - todo ==> pendingUpdates[k] == live[k]
        decreases todo
      {
        var k :| k in todo;
        pendingUpdates := pendingUpdates[k := PendingUpdate(properties[k], now)];
        todo := todo - {k};
      }
      assert pendingUpdates == Staged(old(pendingUpdates), properties, now);
    }

    /** Chooses the flush delay and records this write as the latest connection. */
    method DebounceSendingUpdates(now: int) returns (delay: int)
      modifies this
      ensures delay == DebounceDelay(old(lastConnection), now)
      ensures State() == old(State()).(lastConnection := now)
    {
      var since := now - lastConnection;
      lastConnection := now;
      delay := if since < 1000 then 1000 else 1;
    }

    /**
     * The debounced flush: the payload is the live pending properties,
     * sent through the retry loop.
     */
    method SendPendingUpdates(replies: seq<TransportReply>, now: int) returns (payload: Cache, ok: bool)
      requires Valid()
      requires |replies| == ConnectionAttempts
      modifies this
      ensures Valid()
      ensures payload == PendingProperties(Evict(old(pendingUpdates), now))
      ensures var r := Retry(old(State()).(pending := Evict(old(pendingUpdates), now)),
                             SendPayload, replies, now, |apiProtocolVersions|);
              State() == r.session && ok == r.ok
    {
      payload := GetPendingProperties(now);
      ghost var attempts;
      ok, attempts := RetryOnFailedConnection(SendPayload, replies, now);
    }

    /** The effects of a send the device accepted. */
    method SendPayloadAccepted(now: int)
      modifies this
      ensures State() == Attempted(old(State()), SendPayload, map[], now)
    {
      cachedState := cachedState[UpdatedAt := Number(0)];
      lastConnection := now;
      var live := GetPendingUpdates(now);
      var todo := live.Keys;
      while todo != {}
        invariant todo <= live.Keys
        invariant cachedState == old(cachedState)[UpdatedAt := Number(0)]
        invariant lastConnection == now
        invariant apiProtocolVersionIndex == old(apiProtocolVersionIndex)
        invariant apiProtocolWorking == old(apiProtocolWorking)
        invariant pendingUpdates.Keys == live.Keys
        invariant forall k :: k in live.Keys - todo ==> pendingUpdates[k] == PendingUpdate(live[k].value, now)
        invariant forall k :: k in todo ==> pendingUpdates[k] == live[k]
        decreases todo
      {
        var k :| k in todo;
        pendingUpdates := pendingUpdates[k := PendingUpdate(pendingUpdates[k].value, now)];
        todo := todo - {k};
      }
      assert pendingUpdates == Restamped(Evict(old(pendingUpdates), now), now);
    }

    method Refresh(replies: seq<TransportReply>, now: int) returns (ok: bool)
      requires Valid()
      requires |replies| == ConnectionAttempts
      modifies this
      ensures Valid()
      ensures var r := Retry(old(State()), RefreshState, replies, now, |apiProtocolVersions|);
              State() == r.session && ok == r.ok
    {
      ghost var attempts;
      ok, attempts := RetryOnFailedConnection(RefreshState, replies, now);
    }

    // -------------------------------------------------------------------
    // Retry and protocol-version negotiation

    /** Up to nine attempts; rotates the version after each failure while the protocol is not working. */
    method RetryOnFailedConnection(op: Operation, replies: seq<TransportReply>, now: int)
      returns (ok: bool, ghost attempts: nat)
      requires Valid()
      requires |replies| == ConnectionAttempts
      modifies this
      ensures Valid()
      ensures var r := Retry(old(State()), op, replies, now, |apiProtocolVersions|);
              State() == r.session && ok == r.ok && attempts == r.attempts
    {
      var i := 0;
      while i < ConnectionAttempts
        invariant 0 <= i <= ConnectionAttempts
        invariant Valid()
        invariant RetryFrom(State(), op, replies, i, now, |apiProtocolVersions|)
               == Retry(old(State()), op, replies, now, |apiProtocolVersions|)
      {
        match replies[i] {
          case Returned(dps) =>
            match op {
              case RefreshState => RefreshCachedState(dps, now);
              case SendPayload => SendPayloadAccepted(now);
            }
            apiProtocolWorking := true;
            return true, i + 1;
          case Raised =>
            if i + 1 == ConnectionAttempts {
              ResetCachedState();
              apiProtocolWorking := false;
            }
            if !apiProtocolWorking {
              RotateApiProtocolVersion();
            }
        }
        i := i + 1;
      }
      return false, ConnectionAttempts;
    }

    /** Moves to the next protocol version, wrapping to the first; an unset index starts at the first. */
    method RotateApiProtocolVersion()
      requires |apiProtocolVersions| > 0
      modifies this
      ensures State() == Rotated(old(State()), |apiProtocolVersions|)
    {
      var i := if apiProtocolVersionIndex.None? then 0 else apiProtocolVersionIndex.value + 1;
      if i >= |apiProtocolVersions| {
        i := 0;
      }
      apiProtocolVersionIndex := Some(i);
    }

    // -------------------------------------------------------------------
    // Type inference

    /**
     * The configured type of the best-scoring candidate: the first whose
     * quality is above 0 and above every earlier candidate's, and at least
     * every later one's.  `None` when nothing scores above 0.  Each
     * candidate is scored against the merged view, so the pending writes
     * are evicted as well.
     */
    method InferredType(candidates: seq<Candidate>, now: int) returns (best: Option<string>)
      modifies this
      ensures State() == old(State()).(pending := Evict(old(pendingUpdates), now))
      ensures best.None? <==> forall i :: 0 <= i < |candidates| ==> candidates[i].quality <= 0
      ensures best.Some? ==>
                exists j :: 0 <= j < |candidates| && best.value == candidates[j].configType
                  && candidates[j].quality > 0
                  && (forall i :: 0 <= i < j ==> candidates[i].quality < candidates[j].quality)
                  && (forall i :: j < i < |candidates| ==> candidates[i].quality <= candidates[j].quality)
    {
      var bestMatch: Option<nat> := None;
      var bestQuality := 0;
      var _ := GetCachedState(now);
      for n := 0 to |candidates|
        invariant State() == old(State()).(pending := Evict(old(pendingUpdates), now))
        invariant bestMatch.None? ==> bestQuality == 0 && forall i :: 0 <= i < n ==> candidates[i].quality <= 0
        invariant bestMatch.Some? ==>
                    && bestMatch.value < n
                    && bestQuality == candidates[bestMatch.value].quality > 0
                    && (forall i :: 0 <= i < bestMatch.value ==> candidates[i].quality < bestQuality)
                    && (forall i :: bestMatch.value < i < n ==> candidates[i].quality <= bestQuality)
      {
        var _ := GetCachedState(now);
        EvictLater(old(pendingUpdates), now, now);
        var quality := candidates[n].quality;
        if quality > bestQuality {
          bestQuality := quality;
          bestMatch := Some(n);
        }
      }
      best := if bestMatch.None? then None else Some(candidates[bestMatch.value].configType);
    }

    /** The key of the first entry holding `value`, or `fallback` when no entry does. */
    static function GetKeyForValue<K, V(==)>(entries: seq<(K, V)>, value: V, fallback: K): (key: K)
      ensures (forall i :: 0 <= i < |entries| ==> entries[i].1 != value) ==> key == fallback
      ensures (exists i :: 0 <= i < |entries| && entries[i].1 == value) ==>
                exists j :: 0 <= j < |entries| && entries[j].1 == value && key == entries[j].0
                  && forall i :: 0 <= i < j ==> entries[i].1 != value
    {
      if |entries| == 0 then fallback
      else if entries[0].1 == value then entries[0].0
      else GetKeyForValue(entries[1..], value, fallback)
    }
  }

  /**
   * Writing {"1": true, "2": 10} and reading straight back returns the
   * written values through the pending overlay. If neither a refresh nor
   * the flush that the write arms runs, the writes have lapsed ten
   * seconds later and nothing is known.
   */
  method WriteManyThenRead(versions: seq<string>, now: int) returns (v1: Option<Value>, v2: Option<Value>, later: Option<Value>)
    requires |versions| > 0
    ensures v1 == Some(Bool(true)) && v2 == Some(Number(10))
    ensures later == None
  {
    var device := new TuyaLocalDevice("device", None, versions);
    var written := map["1" := Bool(true), "2" := Number(10)];
    assert "1" in written;
    var _ := device.SetProperties(written, now);
    v1 := device.GetProperty("1", now);
    v2 := device.GetProperty("2", now);
    later := device.GetProperty("1", now + FakeItTimeout);
  }

  /**
   * Flushing a live pending write `k` that the cache does not hold, then
   * reading it back. When the device accepts the send, the write is read
   * until ten seconds after the send, because the send re-stamps it, and
   * not after that. When all nine attempts raise, the session is reset and
   * the write is gone at once.
   */
  method FlushThenRead(device: TuyaLocalDevice, k: string, sendAt: int, mid: int, replies: seq<TransportReply>)
    returns (flushed: bool, soon: Option<Value>, later: Option<Value>, lapsed: Option<Value>)
    requires device.Valid()
    requires |replies| == ConnectionAttempts
    requires k in device.pendingUpdates && Live(device.pendingUpdates[k], sendAt)
    requires k !in device.cachedState
    requires sendAt <= mid < sendAt + FakeItTimeout
    modifies device
    ensures flushed <==> exists a :: 0 <= a < ConnectionAttempts && replies[a].Returned?
    ensures flushed ==> && soon == Some(old(device.pendingUpdates[k].value))
                        && later == soon
                        && lapsed == None
    ensures !flushed ==> soon == None && later == None && lapsed == None
  {
    ghost var s := device.State().(pending := Evict(device.pendingUpdates, sendAt));
    var _, ok := device.SendPendingUpdates(replies, sendAt);
    RetryBounds(s, SendPayload, replies, sendAt, |device.apiProtocolVersions|);
    SentWriteOutcome(s, replies, sendAt, |device.apiProtocolVersions|, k);
    flushed := ok;
    soon := device.GetProperty(k, sendAt);
    later := device.GetProperty(k, mid);
    lapsed := device.GetProperty(k, sendAt + FakeItTimeout);
  }

  /**
   * The write {"1": true, "2": 10}, followed by the flush it arms, run
   * once the debounce delay has passed. Unlike `WriteManyThenRead`, an
   * accepted send keeps "1" readable ten seconds after the write.
   */
  method WriteFlushThenRead(versions: seq<string>, now: int, replies: seq<TransportReply>)
    returns (flushed: bool, soon: Option<Value>, later: Option<Value>, lapsed: Option<Value>)
    requires |versions| > 0
    requires |replies| == ConnectionAttempts
    ensures flushed <==> exists a :: 0 <= a < ConnectionAttempts && replies[a].Returned?
    ensures flushed ==> soon == Some(Bool(true)) && later == Some(Bool(true)) && lapsed == None
    ensures !flushed ==> soon == None && later == None && lapsed == None
  {
    var device := new TuyaLocalDevice("device", None, versions);
    var written := map["1" := Bool(true), "2" := Number(10)];
    assert "1" in written;
    var delay := device.SetProperties(written, now);
    var sendAt := now + delay.value;
    flushed, soon, later, lapsed := FlushThenRead(device, "1", sendAt, now + FakeItTimeout, replies);
  }
}

=== FILE: wrappers.dfy ===
/** Python's `None`-or-value, as a datatype. */
module Wrappers {

  datatype Option<+T> = None | Some(value: T)

  /** Dictionary lookup that yields `None` for a missing key, as `d.get(k)` does. */
  function Get<K, V>(m: map<K, V>, k: K): (r: Option<V>)
    ensures r.Some? <==> k in m
    ensures r.Some? ==> r.value == m[k]
  {
    if k in m then Some(m[k]) else None
  }
}
